=== FILE: README.md ===
# nixos-command, modelled in Dafny

`nixos-command` is a small command-line wrapper around the `nix` CLI for
building and activating NixOS configurations. This project models its core:

- the **flake-reference normaliser**, which turns a short reference such as
  `.#`, `github:org/repo` or `path#host` into the attribute path
  `<flake>#nixosConfigurations."<host>".<attribute>`. It exists twice: once
  with a free attribute (transform.py) and once with `config.system.build.`
  written in front of it (main.py);
- the **profile-path resolver**: the system profile
  `/nix/var/nix/profiles/system`, or a named profile under
  `/nix/var/nix/profiles/system-profiles/`;
- the **argument vectors** handed to `nix build`, `nix-env` and
  `switch-to-configuration`;
- the **switch sequence** (`performSwitchAction`). It realises the
  configuration in a temporary directory, sets the profile, then activates.
  Each step runs only if the previous one succeeded. A failed activation
  prints a warning. The temporary directory is removed on every path;
- the **subcommands** `build`, `build-vm`, `test`, `boot`, `switch` and `apply`.

Everything the outside world decides is an explicit `Main.World` value:

- the host name (`platform.node()`);
- the temporary directory's name;
- the exit status of each external program;
- whether the profile directory exists;
- whether `os.mkdir` raises a permission error, and its text.

The switch sequence and the subcommands return the trace of `Main.Event`s
they cause: the temporary directory created and removed, `nix build`,
`mkdir`, `nix-env`, `switch-to-configuration` run, and messages echoed.

Files, one module each:

- `base.dfy`: `Option`, `Result` and the failed `#` assertion.
- `strings.dfy`: `str.count`, `endswith`, `removesuffix`, `split` and `join` for one character.
- `paths.dfy`: POSIX `os.path.join` and `os.path.dirname`.
- `transform.dfy`: `nixos_command/transform.py`.
- `main.dfy`: the helpers of `nixos_command/main.py` and the switch sequence.
- `commands.dfy`: the subcommands of `nixos_command/main.py`.

The `nix build` argument vector puts the pass-through arguments after
`--out-link <result>` (main.py:37-38), and `Main.RealiseArgv` keeps that
order.

## Model

| member | source | states |
|---|---|---|
| Strings.Count | nixos_command/transform.py:6 | `ref.count('#')` never exceeds the length of the reference |
| Strings.CountZero | nixos_command/transform.py:6 | the count is zero exactly when the character does not occur, so `count('#') == 0` is the "no anchor" test |
| Strings.CountConcat | nixos_command/transform.py:6 | counting a concatenation adds the counts of its parts |
| Strings.IndexOf | nixos_command/transform.py:13 | the index `split` cuts at holds the separator and no earlier position does |
| Strings.EndsWith | nixos_command/transform.py:10 | `ref.endswith('#')` holds exactly when the reference is some text followed by `#` |
| Strings.RemoveSuffix | nixos_command/transform.py:11 | `removesuffix('#')` drops exactly one trailing `#` when there is one and otherwise leaves the string alone |
| Strings.Split | nixos_command/transform.py:13 | `split('#')` yields exactly one more piece than there are `#` |
| Strings.SplitPiecesFree | nixos_command/transform.py:13 | no piece of `split('#')` holds a `#` |
| Strings.SplitAround | nixos_command/transform.py:13 | splitting at the first separator yields the text before it followed by the split of the rest |
| Strings.FirstPiece | nixos_command/transform.py:13 | the first piece of a split is the text before the first separator |
| Strings.JoinSplit | nixos_command/transform.py:13 | joining the pieces of a split with `#` gives back the original string |
| Strings.SplitJoin | nixos_command/transform.py:13 | splitting a `#`-join of `#`-free pieces gives back those pieces |
| Strings.TwoPieces | nixos_command/transform.py:13 | with exactly one `#`, the unpacking `flake, anchorHostname = ref.split('#')` succeeds, and the reference is `flake + "#" + anchorHostname` |
| Paths.Join | nixos_command/main.py:58 | `os.path.join(a, b)`: an absolute `b` replaces `a`; otherwise `a` and `b` are joined with one `/`, none being added when `a` is empty or already ends with `/`; the result always ends with `b` |
| Paths.Dirname | nixos_command/main.py:44 | `os.path.dirname(p)` is a prefix of `p`, is empty when `p` has no `/`, and ends with `/` only when it consists of slashes alone |
| Paths.DirnameJoin | nixos_command/main.py:44 | `os.path.dirname` undoes `os.path.join` for a slash-free name under a directory not ending in `/` |
| Transform.Qualify | nixos_command/transform.py:11 | the attribute path f-string starts with the source followed by `#` and ends with `.` and the attribute |
| Transform.NormalizeFlakeRef | nixos_command/transform.py:4-14 | the reference is rejected with `InvalidReference` exactly when it holds two or more `#` (the failed assertion) |
| Transform.NormalizeUnanchored | nixos_command/transform.py:10-11 | a reference without `#` is used verbatim as the source and is anchored on the host name |
| Transform.NormalizeTrailingAnchor | nixos_command/transform.py:10-11 | a reference ending in its only `#` loses exactly that `#` and is anchored on the host name |
| Transform.NormalizeExplicitAnchor | nixos_command/transform.py:12-14 | `source#anchor` with a non-empty anchor becomes source and anchor, whatever the host name |
| Transform.NormalizeQualifies | nixos_command/transform.py:4-14 | every accepted reference yields the attribute path of its source (the text before `#`) and its anchor (the non-empty text after `#`, otherwise the host name) |
| Transform.ParseQualify | nixos_command/transform.py:11-14 | the attribute path format is unambiguous: source and anchor are read back from it for any `#`-free source |
| Transform.QualifyShape | nixos_command/transform.py:11-14 | an attribute path's text before its first `#` is the source, and the path ends with `.` and the attribute |
| Transform.NormalizeDecodes | nixos_command/transform.py:10-14 | for every accepted reference, parsing the result gives back the reference's source and anchor; the result's source has no `#`; the result ends with `.` plus the attribute |
| Transform.ProfilePath | nixos_command/transform.py:17-18 | the result is the system profile exactly when the name is absent or empty |
| Transform.ProfileNameRoundTrip | nixos_command/transform.py:18 | a non-empty name is read back from its profile path; an absent or empty name gives the system profile, which has no name |
| Transform.ProfilePathInjective | nixos_command/transform.py:18 | two names give the same path exactly when both mean the system profile or both are the same non-empty name |
| Transform.ProfileDirectory | nixos_command/main.py:44-47 | the directory `setNixProfile` checks and creates is `/nix/var/nix/profiles` for the system profile and `/nix/var/nix/profiles/system-profiles` for a slash-free name |
| Main.NormalizeFlakeRef | nixos_command/main.py:14-24 | main.py's normaliser rejects exactly the references with two or more `#` |
| Main.MainTemplate | nixos_command/main.py:21-24 | main.py's f-string is transform.py's attribute path with `config.system.build.` before the attribute |
| Main.DefaultsAgree | nixos_command/main.py:14 | with their own default attributes (`toplevel` in main.py, `config.system.build.toplevel` in transform.py:4) the two normalisers give the same result on every reference |
| Main.MainNormalizeMatchesTransform | nixos_command/main.py:14-24 | main.py's normaliser on `a` equals transform.py's on `config.system.build.` + `a` for every reference, rejected ones included |
| Main.BuildResultUnderTemp | nixos_command/main.py:65 | for a non-empty temporary directory not ending in `/`, the build result is `<tmpdir>/nixos-build` and its `dirname` is the temporary directory again |
| Main.BuildResultJoins | nixos_command/main.py:65 | the build result is `nixos-build` after the temporary directory, with a `/` between them unless the directory is empty or already ends with one, as `os.path.join` gives it |
| Main.BuildResultNamed | nixos_command/main.py:65 | the build result is never empty and never ends in `/`, whatever the temporary directory |
| Main.RealiseArgv | nixos_command/main.py:27-38 | the `nix build` argv is `nix build`, then `--file` if set, then `--expr` if set, then installable, `--out-link` and result, then the pass-through arguments in order; its length is 5 plus the flags plus the pass-through count |
| Main.SetProfileArgv | nixos_command/main.py:52 | the `nix-env` argv is `nix-env --profile <profile> --set <result>`, five entries |
| Main.ActivateArgv | nixos_command/main.py:57-58 | the activation argv has two entries, the second being the mode |
| Main.ActivationScript | nixos_command/main.py:58 | the script is `<result>/bin/switch-to-configuration`; a result ending in `/` gets no second slash and an empty result gives a relative path, as `os.path.join` does |
| Main.SetNixProfile | nixos_command/main.py:43-54 | succeeds exactly when the profile directory exists or can be created and `nix-env` exits with 0; `mkdir` runs exactly when the directory is missing, always on `dirname(profile)`; a permission error yields exactly `mkdir` and the echo `While creating profile directory: <error>`; `nix-env` runs, with the profile and result, exactly when the directory is there or was created; `mkdir` and `nix-env` each run at most once, `mkdir` before `nix-env`; something is echoed exactly on the permission error; it causes nothing but these events |
| Main.Assemble | nixos_command/main.py:64-69 | the switch trace built from its parts always opens with the temporary directory, then the build, and closes by removing the directory |
| Main.AssembleActivates | nixos_command/main.py:66-69 | in the assembled trace the activation appears exactly when build and profile step succeed, and the warning exactly when the activation then fails |
| Main.AssembleOrder | nixos_command/main.py:64-68 | in the assembled trace the directory is created only first and removed only last, the build is the only `nix build`, profile events come only from the profile step after a successful build, and precede the activation |
| Main.AssembleSequence | nixos_command/main.py:65-68 | in the assembled trace the build comes first and alone, every profile run precedes every activation, profile runs keep the profile step's argument vector, and the activation keeps its own |
| Main.AssembleFailedBuild | nixos_command/main.py:66-67 | after a failed build the assembled trace is the build alone inside the temporary directory |
| Main.AssembleRunsStep | nixos_command/main.py:66-67 | after a successful build every profile-step event follows the build, in order and unchanged |
| Main.PerformSwitchAction | nixos_command/main.py:63-69 | the trace starts by creating the temporary directory and ends by removing it, and its first command is `nix build` into `<tmpdir>/nixos-build` |
| Main.SwitchStopsAfterFailedBuild | nixos_command/main.py:66-67 | when the build fails, no profile directory is created, no profile is set, nothing is activated and no warning is printed |
| Main.SwitchRunsProfileStep | nixos_command/main.py:66-67 | after a successful build the sequence contains all of `setNixProfile`'s events right after the build, in order, so the profile directory is created or the profile is set |
| Main.SwitchActivatesIff | nixos_command/main.py:66-68 | activation runs if and only if the build and the profile step both succeed, so a `mkdir` permission error or a failed `nix-env` skips it |
| Main.SwitchWarnsIff | nixos_command/main.py:68-69 | the warning is printed if and only if build and profile step succeed and activation fails |
| Main.SwitchReleasesTemp | nixos_command/main.py:64-69 | on every outcome the temporary directory is created first and removed last, once each |
| Main.SwitchOrder | nixos_command/main.py:65-68 | the build is the only `nix build` and comes first, every profile step precedes every activation, and both use the build's out-link |
| Main.SwitchModeAndProfile | nixos_command/main.py:63-68 | every activation passes the requested mode and every profile step names the requested profile |
| Main.SwitchScriptPath | nixos_command/main.py:58-65 | inside the switch sequence the activation script is always `<tmpdir>/nixos-build/bin/switch-to-configuration` |
| Commands.BuildCommand | nixos_command/main.py:92-94 | a build either fails the `#` assertion (two or more `#`, an `AssertionError`) or runs exactly one `nix build` into `result` with the pass-through arguments last |
| Commands.ActivationCommand | nixos_command/main.py:84-90 | an activation command either fails the `#` assertion (an `AssertionError`) or runs a trace that creates the temporary directory first and removes it last |
| Commands.ActivationRuns | nixos_command/main.py:84-90 | `test`, `boot`, `switch` and `apply` each run the switch sequence with main.py's normalised reference, the resolved profile and the mode `test`, `boot`, `switch` and `switch` respectively |
| Commands.ModeOf | nixos_command/main.py:112-133 | the activation mode is `switch` exactly for `switch` and `apply`, `test` exactly for `test` and `boot` exactly for `boot` |
| Commands.VmAttribute | nixos_command/main.py:109 | `build-vm` builds `vmWithBootLoader` exactly when `--bootloader` is given, and `vm` otherwise |
| Commands.Run | nixos_command/main.py:97-133 | every subcommand fails the `#` assertion (an `AssertionError`) exactly when the installable holds two or more `#` |
| Commands.ApplyIsSwitch | nixos_command/main.py:124-133 | `apply` gives the same result as `switch` for every input |
| Commands.BuildOnlyRealises | nixos_command/main.py:92-109 | `build` and `build-vm` run one `nix build` of transform.py's path for `config.system.build.` with `toplevel`, `vmWithBootLoader` (bootloader set) or `vm` into `result`, with no profile step and no activation |
| Commands.ActivationModes | nixos_command/main.py:112-133 | `test`, `boot`, `switch` and `apply` activate with modes `test`, `boot`, `switch` and `switch`, on the profile resolved from `-p` |
| Commands.InvalidReferenceRunsNothing | nixos_command/main.py:18 | a reference with two or more `#` stops every subcommand with `InvalidReference` before anything runs |
| Commands.DefaultInstallableUsesHost | nixos_command/main.py:98 | main.py's normaliser turns the default installable `.#` into `.#nixosConfigurations."<host>".config.system.build.<attribute>` |
| Commands.TransformDefaultInstallable | nixos_command/transform.py:10-11 | transform.py's normaliser turns `.#` into `.#nixosConfigurations."<host>".<attribute>` |
| Commands.DoubleAnchorScenario | nixos_command/transform.py:8 | `a#b#c` is rejected with `InvalidReference` |

## Left out

- Process execution (`subprocess.run`), `platform.node()`, `tempfile`, `os.path.isdir` and `os.mkdir` are not executed. Their answers are fields of `Main.World`, and their invocations are trace events.
- `printDebug` and the `NIXOS_COMMAND_DEBUG` variable are left out: they only echo argument vectors and change no behaviour.
- `nixos_command/flags.py` and the click registration (`run`, `activationCommandSettings`, `context_settings`, option parsing) are left out as command-line glue. Only the default installable `.#` is kept, as `Commands.DefaultInstallable`.
- Python default arguments are not modelled as such. The default attributes of the two normalisers are the constants `Main.DefaultAttribute` and `Transform.DefaultAttribute`, and callers pass them explicitly. `fromFile` and `fromExpr` are passed as `false`.
- `eval` and `history` subcommands are left out: main.py defines neither, so there is no behaviour to model.
- The failed `#` assertion is modelled as the result `Failure(InvalidReference)`, not as a raised `AssertionError` with its traceback. The assertion is modelled with Python assertions enabled. Under `python -O` it is stripped. A reference with two or more `#` that ends in `#` (such as `a#b#`) is then formatted with its last `#` removed. Any other such reference (such as `a#b#c`) raises `ValueError` at the two-way unpacking of `ref.split('#')` (transform.py:13, main.py:23) and never reaches the formatting code.
- Exceptions that main.py does not catch are left out, the temporary directory's removal on those paths included. Examples are a `FileNotFoundError` from `os.mkdir` when a parent is missing, and a `subprocess.run` of a missing executable.
- The exit status of `nix build` in `build` and `build-vm` is discarded by main.py, so the model records only the invocation.
- `--file` and `--expr` are modelled in `Main.RealiseArgv`, though no caller in main.py sets them.
- The text of the `PermissionError` is a parameter (`World.mkdirError`), because it comes from the operating system.
- Transform.ProfilePath: its own contract states only when the system profile is chosen. The exact named path is stated through `Transform.ProfileNameRoundTrip`, `Transform.ProfilePathInjective` and `Transform.ProfileDirectory`.

=== FILE: base.dfy ===
/** Shared value types: an optional value (Python's `None`-or-value arguments)
    and the result of an operation that can fail an assertion. */
module Base {

  /** A value that may be absent, as Python's `None` default arguments. */
  datatype Option<+T> = None | Some(value: T)

  /** Why an operation stopped: a failed Python `assert`, which raises an
      uncaught `AssertionError` before any external program runs. */
  datatype Error =
    /** A configuration reference with more than one `#` (the failed `assert`). */
    | InvalidReference

  /** Either a computed value or the error that aborted the computation. */
  datatype Result<+T> = Success(value: T) | Failure(error: Error)
}

=== FILE: commands.dfy ===
/** The subcommands of `nixos_command/main.py`: `build`, `build-vm`, `test`,
    `boot`, `switch` and `apply`, each reduced to the trace of what it does
    once its arguments are parsed. A reference that fails the `#` assertion
    stops the subcommand before any external program runs. */
module Commands {
  import opened Base
  import opened Strings
  import Transform
  import opened Main

  /** The installable every subcommand defaults to. */
  const DefaultInstallable: string := ".#"

  /** The out-link `build` and `build-vm` leave in the working directory. */
  const ResultLink: string := "result"

  /** A parsed subcommand with its own options. */
  datatype Command =
    | Build
    | BuildVm(bootloader: bool)
    | Test(profileName: Option<string>)
    | Boot(profileName: Option<string>)
    | Switch(profileName: Option<string>)
    | Apply(profileName: Option<string>)

  /** `buildCommand(installable, nixargs, attribute)`: normalise the
      reference and realise it into `./result`; nothing else happens. */
  function BuildCommand(installable: string, nixargs: seq<string>, attribute: string, w: World): (r: Result<seq<Event>>)
    ensures r.Failure? <==> Count(installable, '#') >= 2
    ensures r.Success? ==> && |r.value| == 1 && r.value[0].Realise? && |r.value[0].argv| == 5 + |nixargs|
                           && r.value[0].argv[4] == ResultLink && r.value[0].argv[5..] == nixargs
  {
    match NormalizeFlakeRef(installable, attribute, w.hostname)
    case Failure(e) => Failure(e)
    case Success(toplevel) => Success([Realise(RealiseArgv(toplevel, nixargs, ResultLink, false, false))])
  }

  /** `activationCommand(profile_name, installable, nixargs, action)`:
      normalise the reference with the default attribute, resolve the
      profile, and run the switch sequence in the given mode. */
  function ActivationCommand(profileName: Option<string>, installable: string, nixargs: seq<string>, action: string, w: World)
    : (r: Result<seq<Event>>)
    ensures r.Failure? <==> Count(installable, '#') >= 2
    ensures r.Success? ==> |r.value| >= 3 && r.value[0] == AcquireTemp(w.tmpdir) && r.value[|r.value| - 1] == ReleaseTemp(w.tmpdir)
  {
    match NormalizeFlakeRef(installable, DefaultAttribute, w.hostname)
    case Failure(e) => Failure(e)
    case Success(toplevel) =>
      Success(PerformSwitchAction(toplevel, Transform.ProfilePath(profileName), nixargs, action, w))
  }

  /** The attribute `build-vm` builds: the VM with a boot loader exactly
      when `--bootloader` is given, the plain VM otherwise. */
  function VmAttribute(bootloader: bool): (attribute: string)
    ensures attribute == "vmWithBootLoader" <==> bootloader
    ensures !bootloader ==> attribute == "vm"
  {
    if bootloader then "vmWithBootLoader" else "vm"
  }

  /** Running a parsed subcommand. */
  function Run(cmd: Command, installable: string, nixargs: seq<string>, w: World): (r: Result<seq<Event>>)
    ensures r.Failure? <==> Count(installable, '#') >= 2
  {
    match cmd
    case Build => BuildCommand(installable, nixargs, DefaultAttribute, w)
    case BuildVm(bootloader) => BuildCommand(installable, nixargs, VmAttribute(bootloader), w)
    case _ => ActivationCommand(cmd.profileName, installable, nixargs, ModeOf(cmd), w)
  }

  /** The `switch-to-configuration` action of a subcommand that activates:
      `test`, `boot`, and `switch` for both `switch` and `apply`. */
  function ModeOf(cmd: Command): (mode: string)
    requires cmd.Test? || cmd.Boot? || cmd.Switch? || cmd.Apply?
    ensures mode == "switch" <==> cmd.Switch? || cmd.Apply?
    ensures mode == "test" <==> cmd.Test?
    ensures mode == "boot" <==> cmd.Boot?
  {
    if cmd.Test? then "test" else if cmd.Boot? then "boot" else "switch"
  }

  /** `apply` behaves exactly as `switch`. */
  lemma ApplyIsSwitch(profileName: Option<string>, installable: string, nixargs: seq<string>, w: World)
    ensures Run(Apply(profileName), installable, nixargs, w) == Run(Switch(profileName), installable, nixargs, w)
  {
    assert ModeOf(Apply(profileName)) == ModeOf(Switch(profileName));
  }

  /** `build` and `build-vm` only build: one `nix build` into `./result` of
      the attribute path transform.py gives for `config.system.build.` and
      `toplevel`, `vm` or `vmWithBootLoader`; no profile step and no
      activation. */
  lemma BuildOnlyRealises(cmd: Command, installable: string, nixargs: seq<string>, w: World)
    requires cmd.Build? || cmd.BuildVm?
    requires Count(installable, '#') <= 1
    ensures var attribute := if cmd.Build? then DefaultAttribute
                             else if cmd.bootloader then "vmWithBootLoader" else "vm";
            var r := Run(cmd, installable, nixargs, w);
            var toplevel := Transform.NormalizeFlakeRef(installable, "config.system.build." + attribute, w.hostname);
            && r.Success? && toplevel.Success?
            && r.value == [Realise(RealiseArgv(toplevel.value, nixargs, ResultLink, false, false))]
            && !ProfileTouched(r.value) && !Activated(r.value)
  {
    var attribute := if cmd.Build? then DefaultAttribute else VmAttribute(cmd.bootloader);
    assert Run(cmd, installable, nixargs, w) == BuildCommand(installable, nixargs, attribute, w);
    MainNormalizeMatchesTransform(installable, attribute, w.hostname);
    var toplevel := Transform.NormalizeFlakeRef(installable, "config.system.build." + attribute, w.hostname);
    OnlyRealise(Realise(RealiseArgv(toplevel.value, nixargs, ResultLink, false, false)));
  }

  /** A trace of one build touches no profile and activates nothing. */
  lemma OnlyRealise(e: Event)
    requires e.Realise?
    ensures !ProfileTouched([e]) && !Activated([e])
  {
  }

  /** The activation subcommands run the switch sequence on the resolved
      profile, and every activation they perform uses their mode: `test`,
      `boot`, and `switch` for both `switch` and `apply`. */
  lemma ActivationModes(cmd: Command, installable: string, nixargs: seq<string>, w: World)
    requires cmd.Test? || cmd.Boot? || cmd.Switch? || cmd.Apply?
    requires Count(installable, '#') <= 1
    ensures var r := Run(cmd, installable, nixargs, w);
            var mode := if cmd.Test? then "test" else if cmd.Boot? then "boot" else "switch";
            && r.Success?
            && UsesModeAndProfile(r.value, mode, Transform.ProfilePath(cmd.profileName))
  {
    var mode := ModeOf(cmd);
    var toplevel := NormalizeFlakeRef(installable, DefaultAttribute, w.hostname).value;
    var profile := Transform.ProfilePath(cmd.profileName);
    ActivationRuns(cmd, installable, nixargs, w, mode);
    SwitchModeAndProfile(toplevel, profile, nixargs, mode, w);
  }

  /** An activation subcommand is the switch sequence on its reference and
      profile, in its mode. */
  lemma ActivationRuns(cmd: Command, installable: string, nixargs: seq<string>, w: World, mode: string)
    requires cmd.Test? || cmd.Boot? || cmd.Switch? || cmd.Apply?
    requires Count(installable, '#') <= 1
    requires mode == if cmd.Test? then "test" else if cmd.Boot? then "boot" else "switch"
    ensures Run(cmd, installable, nixargs, w)
            == Success(PerformSwitchAction(NormalizeFlakeRef(installable, DefaultAttribute, w.hostname).value,
                                           Transform.ProfilePath(cmd.profileName), nixargs, mode, w))
  {
    assert ModeOf(cmd) == mode;
    assert Run(cmd, installable, nixargs, w) == ActivationCommand(cmd.profileName, installable, nixargs, mode, w);
    ActivationCommandRuns(cmd.profileName, installable, nixargs, mode, w);
  }

  /** An accepted reference makes `activationCommand` run the switch sequence. */
  lemma ActivationCommandRuns(profileName: Option<string>, installable: string, nixargs: seq<string>, action: string, w: World)
    requires Count(installable, '#') <= 1
    ensures ActivationCommand(profileName, installable, nixargs, action, w)
            == Success(PerformSwitchAction(NormalizeFlakeRef(installable, DefaultAttribute, w.hostname).value,
                                           Transform.ProfilePath(profileName), nixargs, action, w))
  {
  }

  /** A reference with two or more `#` stops every subcommand before any
      external program runs. */
  lemma InvalidReferenceRunsNothing(cmd: Command, installable: string, nixargs: seq<string>, w: World)
    requires Count(installable, '#') >= 2
    ensures Run(cmd, installable, nixargs, w) == Failure(InvalidReference)
  {
  }

  /** With the default installable `.#` main.py's subcommands read the
      current directory's flake and the host's own configuration. */
  lemma DefaultInstallableUsesHost(attribute: string, hostname: string)
    ensures NormalizeFlakeRef(DefaultInstallable, attribute, hostname)
            == Success(".#nixosConfigurations.\"" + hostname + "\".config.system.build." + attribute)
  {
    TransformDefaultInstallable("config.system.build." + attribute, hostname);
    MainNormalizeMatchesTransform(DefaultInstallable, attribute, hostname);
    var front := ".#nixosConfigurations.\"" + hostname;
    assert "\"." + "config.system.build." == "\".config.system.build.";
    assert front + "\"." + ("config.system.build." + attribute) == front + "\".config.system.build." + attribute;
  }

  /** transform.py's normaliser anchors `.#` on the host too. */
  lemma TransformDefaultInstallable(attribute: string, hostname: string)
    ensures Transform.NormalizeFlakeRef(DefaultInstallable, attribute, hostname)
            == Success(".#nixosConfigurations.\"" + hostname + "\"." + attribute)
  {
    assert DefaultInstallable == "." + [Transform.Anchor];
    Transform.NormalizeTrailingAnchor(".", attribute, hostname);
    assert ".#nixosConfigurations.\"" == "." + [Transform.Anchor] + Transform.ConfigurationsMarker;
  }

  /** `a#b#c` is rejected. */
  lemma DoubleAnchorScenario(attribute: string, hostname: string)
    ensures Transform.NormalizeFlakeRef("a#b#c", attribute, hostname) == Failure(InvalidReference)
  {
    assert "a#b#c" == "a" + "#" + "b" + "#" + "c";
    CountConcat("a#b", "#c", '#');
    CountConcat("a", "#b", '#');
  }
}

=== FILE: main.dfy ===
/** `nixos_command/main.py` below the command line: its own copy of the
    reference normaliser, the argument vectors handed to `nix build`,
    `nix-env` and `switch-to-configuration`, and the realise / set profile /
    activate sequence. Everything the outside world answers (host name,
    temporary directory, exit codes, the file system) comes in as a `World`,
    and the sequence returns the trace of what it did. */
module Main {
  import opened Base
  import opened Strings
  import Paths
  import Transform

  /** The answers of the environment for one invocation. */
  datatype World = World(
    hostname: string,              // what `platform.node()` returns
    tmpdir: string,                // the directory `tempfile.TemporaryDirectory` creates
    realiseOk: bool,               // `nix build` exits with 0
    profileDirExists: bool,        // `os.path.isdir` of the profile's directory
    mkdirError: Option<string>,    // text of the `PermissionError` from `os.mkdir`, if it raises one
    setOk: bool,                   // `nix-env --set` exits with 0
    activateOk: bool               // `switch-to-configuration` exits with 0
  )

  /** One observable step of an invocation. */
  datatype Event =
    | AcquireTemp(dir: string)            // temporary directory created
    | Realise(argv: seq<string>)          // `nix build ...` run
    | MakeDir(path: string)               // `os.mkdir` attempted
    | Echo(text: string)                  // `click.echo` message
    | SetProfile(argv: seq<string>)       // `nix-env --profile ... --set ...` run
    | Activate(argv: seq<string>)         // `.../bin/switch-to-configuration <mode>` run
    | ReleaseTemp(dir: string)            // temporary directory removed

  /** The message printed when activation fails, spelled as main.py spells
      it. It is written as two literals, so that the verifier sees its first
      character without unfolding the whole text. */
  const SwitchWarning: string := "warning: " + "errors occured during configuration switch"
  /** The start of the message printed when `os.mkdir` is refused. */
  const MkdirFailurePrefix: string := "While creating profile directory: "

  /** Where the configuration is built inside the temporary directory:
      `nixos-build`, after a `/` unless the directory is empty or already
      ends with one. */
  function BuildResult(tmpdir: string): string {
    Paths.Join(tmpdir, "nixos-build")
  }

  /** The build result is `nixos-build` after the temporary directory and a
      `/`, the slash left out when the directory is empty or already ends
      with one. */
  lemma BuildResultJoins(tmpdir: string)
    ensures var r := BuildResult(tmpdir);
            && |r| >= 11 && r[|r| - 11..] == "nixos-build"
            && r[..|r| - 11] == if tmpdir == "" || EndsWith(tmpdir, Paths.Sep) then tmpdir else tmpdir + [Paths.Sep]
  {
  }

  /** The build result is never empty and never ends in a slash. */
  lemma BuildResultNamed(tmpdir: string)
    ensures BuildResult(tmpdir) != "" && !EndsWith(BuildResult(tmpdir), Paths.Sep)
  {
    var r := BuildResult(tmpdir);
    assert "nixos-build"[0] != '/';
    assert r != "" && r[|r| - 1] == 'd';
  }

  /** Under a non-empty temporary directory without a trailing slash the
      build result is `<tmpdir>/nixos-build`, and its directory is the
      temporary directory again. */
  lemma BuildResultUnderTemp(tmpdir: string)
    requires tmpdir != "" && !EndsWith(tmpdir, Paths.Sep)
    ensures BuildResult(tmpdir) == tmpdir + "/nixos-build"
    ensures Paths.Dirname(BuildResult(tmpdir)) == tmpdir
  {
    assert Paths.Sep !in "nixos-build";
    Paths.DirnameJoin(tmpdir, "nixos-build");
  }

  /** The attribute main.py's normaliser selects when none is given. */
  const DefaultAttribute: string := "toplevel"

  /** `normalizeNixosFlakeRef(ref, attribute)` of main.py: the same algorithm
      as transform.py's, with `config.system.build.` written in front of the
      attribute. */
  function NormalizeFlakeRef(ref: string, attribute: string, hostname: string): (r: Result<string>)
    ensures r.Failure? <==> Count(ref, '#') >= 2
  {
    var anchorCount := Count(ref, '#');
    if !(anchorCount == 1 || anchorCount == 0) then Failure(InvalidReference)
    else if EndsWith(ref, '#') || anchorCount == 0 then
      Success(RemoveSuffix(ref, '#') + "#nixosConfigurations.\"" + hostname + "\".config.system.build." + attribute)
    else
      var parts := Split(ref, '#');
      Success(parts[0] + "#nixosConfigurations.\"" + parts[1] + "\".config.system.build." + attribute)
  }

  /** main.py's f-string is transform.py's attribute path with
      `config.system.build.` in front of the attribute. */
  lemma MainTemplate(source: string, anchor: string, attribute: string)
    ensures source + "#nixosConfigurations.\"" + anchor + "\".config.system.build." + attribute
            == Transform.Qualify(source, anchor, "config.system.build." + attribute)
  {
    assert "#nixosConfigurations.\"" == [Transform.Anchor] + Transform.ConfigurationsMarker;
    assert "\".config.system.build." == Transform.AnchorEnd + "config.system.build.";
  }

  /** The two normalisers agree once transform.py's is given the full
      attribute path, on every reference, accepted or not. */
  lemma MainNormalizeMatchesTransform(ref: string, attribute: string, hostname: string)
    ensures NormalizeFlakeRef(ref, attribute, hostname)
            == Transform.NormalizeFlakeRef(ref, "config.system.build." + attribute, hostname)
  {
    var anchorCount := Count(ref, '#');
    if anchorCount <= 1 {
      if EndsWith(ref, '#') || anchorCount == 0 {
        MainTemplate(RemoveSuffix(ref, '#'), hostname, attribute);
      } else {
        var parts := Split(ref, '#');
        MainTemplate(parts[0], parts[1], attribute);
      }
    }
  }

  /** With their default attributes, the two normalisers give the same
      result on every reference. */
  lemma DefaultsAgree(ref: string, hostname: string)
    ensures NormalizeFlakeRef(ref, DefaultAttribute, hostname)
            == Transform.NormalizeFlakeRef(ref, Transform.DefaultAttribute, hostname)
  {
    MainNormalizeMatchesTransform(ref, DefaultAttribute, hostname);
    assert "config.system.build." + DefaultAttribute == Transform.DefaultAttribute;
  }

  /** `realiseNixosConfiguration`'s argument vector: `nix build`, the
      optional `--file` and `--expr` flags in that order, the installable,
      the out-link, then the pass-through arguments unchanged. */
  function RealiseArgv(toplevel: string, nixargs: seq<string>, result: string, fromFile: bool, fromExpr: bool): (argv: seq<string>)
    ensures var flags := (if fromFile then 1 else 0) + (if fromExpr then 1 else 0);
            && |argv| == 5 + flags + |nixargs|
            && argv[0] == "nix" && argv[1] == "build"
            && (fromFile ==> argv[2] == "--file")
            && (fromExpr ==> argv[1 + flags] == "--expr")
            && argv[2 + flags] == toplevel
            && argv[3 + flags] == "--out-link"
            && argv[4 + flags] == result
            && (forall i :: 0 <= i < |nixargs| ==> argv[5 + flags + i] == nixargs[i])
  {
    var nix := ["nix", "build"];
    var nix := if fromFile then nix + ["--file"] else nix;
    var nix := if fromExpr then nix + ["--expr"] else nix;
    var nix := nix + [toplevel, "--out-link", result];
    nix + nixargs
  }

  /** The `nix-env` call that points the profile at the build result. */
  function SetProfileArgv(profile: string, result: string): (argv: seq<string>)
    ensures |argv| == 5 && argv[0] == "nix-env"
    ensures argv[1] == "--profile" && argv[2] == profile
    ensures argv[3] == "--set" && argv[4] == result
  {
    ["nix-env", "--profile", profile, "--set", result]
  }

  /** `activateNixosConfiguration`'s argument vector: the result's
      `bin/switch-to-configuration` (joined the way `os.path.join` does) and
      the mode. */
  function ActivateArgv(result: string, mode: string): (argv: seq<string>)
    ensures |argv| == 2 && argv[1] == mode
  {
    [Paths.Join(Paths.Join(result, "bin"), Script), mode]
  }

  /** The activation script is `<result>/bin/switch-to-configuration`; a
      result ending in `/` gets no second slash, an empty one leaves a
      relative path. */
  lemma ActivationScript(result: string, mode: string)
    ensures result != "" && !EndsWith(result, '/') ==> ActivateArgv(result, mode)[0] == result + "/bin/" + Script
    ensures EndsWith(result, '/') ==> ActivateArgv(result, mode)[0] == result + "bin/" + Script
    ensures result == "" ==> ActivateArgv(result, mode)[0] == "bin/" + Script
  {
    ScriptPath(result, mode);
    BinPrefix(result);
  }

  /** The directory part of the activation script, with its trailing slash. */
  lemma BinPrefix(result: string)
    ensures result == "" ==> Paths.Join(result, "bin") + "/" == "bin/"
    ensures EndsWith(result, '/') ==> Paths.Join(result, "bin") + "/" == result + "bin/"
    ensures result != "" && !EndsWith(result, '/') ==> Paths.Join(result, "bin") + "/" == result + "/bin/"
  {
    BinDirectory(result);
  }

  /** The activation script is the script name under the result's `bin`,
      with exactly one slash between them. */
  lemma ScriptPath(result: string, mode: string)
    ensures ActivateArgv(result, mode)[0] == Paths.Join(result, "bin") + "/" + Script
  {
    BinDirectory(result);
    ScriptUnder(Paths.Join(result, "bin"));
  }

  /** Joining the script name onto a directory that does not end in `/`
      inserts exactly one slash. */
  lemma ScriptUnder(dir: string)
    requires dir != "" && !EndsWith(dir, '/')
    ensures Paths.Join(dir, Script) == dir + "/" + Script
  {
    assert Script[0] == 's';
  }

  /** The first join of the activation script's path. */
  lemma BinDirectory(result: string)
    ensures var bin := Paths.Join(result, "bin");
            && bin != "" && bin[|bin| - 1] == 'n'
            && (result == "" ==> bin == "bin")
            && (EndsWith(result, '/') ==> bin == result + "bin")
            && (result != "" && !EndsWith(result, '/') ==> bin == result + "/bin")
  {
    assert "bin"[0] != '/';
  }

  const Script: string := "switch-to-configuration"

  /** What `setNixProfile` did and whether it reports success. */
  datatype StepOutcome = StepOutcome(ok: bool, events: seq<Event>)

  /** Whether `setNixProfile` succeeds in `w`: the profile's directory exists
      or can be made, and `nix-env` exits with 0. */
  predicate ProfileSet(w: World) {
    (w.profileDirExists || w.mkdirError.None?) && w.setOk
  }

  /** An event the profile step may cause: the `mkdir`, the `nix-env` run,
      or a message other than the switch warning. */
  predicate ProfileEvent(e: Event) {
    e.MakeDir? || e.SetProfile? || (e.Echo? && e.text != SwitchWarning)
  }

  /** `mkdir` comes before `nix-env` in `es`. */
  predicate MakeDirFirst(es: seq<Event>) {
    forall i, j :: 0 <= i < |es| && 0 <= j < |es| && es[i].MakeDir? && es[j].SetProfile? ==> i < j
  }

  /** `mkdir` and `nix-env` each appear at most once in `es`. */
  predicate RunsOnce(es: seq<Event>) {
    && (forall i, j :: 0 <= i < |es| && 0 <= j < |es| && es[i].MakeDir? && es[j].MakeDir? ==> i == j)
    && (forall i, j :: 0 <= i < |es| && 0 <= j < |es| && es[i].SetProfile? && es[j].SetProfile? ==> i == j)
  }

  /** A `mkdir` followed by one other event that is not a `mkdir` runs
      each step once and in order. */
  lemma PairRuns(first: Event, second: Event)
    requires first.MakeDir? && !second.MakeDir?
    ensures MakeDirFirst([first, second]) && RunsOnce([first, second])
  {
  }

  /** `setNixProfile(profile, result)`: create the profile's directory if it
      is missing (a permission error is reported and fails the step), then
      run `nix-env` and succeed on exit code 0. */
  function SetNixProfile(profile: string, result: string, w: World): (o: StepOutcome)
    ensures o.ok <==> ProfileSet(w)
    ensures (exists i :: 0 <= i < |o.events| && o.events[i].SetProfile?)
            <==> w.profileDirExists || w.mkdirError.None?
    ensures forall i :: 0 <= i < |o.events| && o.events[i].SetProfile? ==> o.events[i].argv == SetProfileArgv(profile, result)
    ensures (exists i :: 0 <= i < |o.events| && o.events[i].MakeDir?) <==> !w.profileDirExists
    ensures forall i :: 0 <= i < |o.events| && o.events[i].MakeDir? ==> o.events[i].path == Paths.Dirname(profile)
    ensures !w.profileDirExists && w.mkdirError.Some?
            ==> o.events == [MakeDir(Paths.Dirname(profile)), Echo(MkdirFailurePrefix + w.mkdirError.value)]
    ensures forall i :: 0 <= i < |o.events| ==> ProfileEvent(o.events[i])
    ensures MakeDirFirst(o.events) && RunsOnce(o.events)
    ensures (exists i :: 0 <= i < |o.events| && o.events[i].Echo?) <==> !w.profileDirExists && w.mkdirError.Some?
  {
    var profileDir := Paths.Dirname(profile);
    var nixEnv := SetProfile(SetProfileArgv(profile, result));
    if w.profileDirExists then
      assert [nixEnv][0].SetProfile?;
      StepOutcome(w.setOk, [nixEnv])
    else if w.mkdirError.Some? then
      var message := MkdirFailurePrefix + w.mkdirError.value;
      MkdirMessageIsNotWarning(w.mkdirError.value);
      var events := [MakeDir(profileDir), Echo(message)];
      assert events[0].MakeDir? && events[1].Echo?;
      PairRuns(events[0], events[1]);
      StepOutcome(false, events)
    else
      var events := [MakeDir(profileDir), nixEnv];
      assert events[0].MakeDir? && events[1].SetProfile?;
      PairRuns(events[0], events[1]);
      StepOutcome(w.setOk, events)
  }

  /** The report of a failed `os.mkdir` is never the switch warning. */
  lemma MkdirMessageIsNotWarning(error: string)
    ensures MkdirFailurePrefix + error != SwitchWarning
  {
    assert (MkdirFailurePrefix + error)[0] == 'W';
    assert SwitchWarning[0] == 'w';
  }

  /** The trace of the switch sequence from its parts: inside the temporary
      directory the build; the profile step's events if the build succeeded;
      the activation if the profile step succeeded too; and the warning if
      the activation failed. */
  function Assemble(tmpdir: string, realise: Event, realiseOk: bool, profileStep: StepOutcome, activate: Event, activateOk: bool)
    : (t: seq<Event>)
    ensures |t| >= 3 && t[0] == AcquireTemp(tmpdir) && t[1] == realise && t[|t| - 1] == ReleaseTemp(tmpdir)
  {
    var body :=
      if !realiseOk then [realise]
      else if !profileStep.ok then [realise] + profileStep.events
      else [realise] + profileStep.events + [activate] + (if activateOk then [] else [Echo(SwitchWarning)]);
    [AcquireTemp(tmpdir)] + body + [ReleaseTemp(tmpdir)]
  }

  /** `performSwitchAction(toplevel, profile, nixargs, mode)`: inside a
      temporary directory, realise the configuration, then set the profile,
      then activate; each step runs only if the one before succeeded, a
      failed activation prints a warning, and the directory is removed
      whatever happened. */
  function PerformSwitchAction(toplevel: string, profile: string, nixargs: seq<string>, mode: string, w: World): (t: seq<Event>)
    ensures |t| >= 3
    ensures t[0] == AcquireTemp(w.tmpdir) && t[|t| - 1] == ReleaseTemp(w.tmpdir)
    ensures t[1] == Realise(RealiseArgv(toplevel, nixargs, BuildResult(w.tmpdir), false, false))
  {
    var result := BuildResult(w.tmpdir);
    Assemble(w.tmpdir, Realise(RealiseArgv(toplevel, nixargs, result, false, false)), w.realiseOk,
             SetNixProfile(profile, result, w), Activate(ActivateArgv(result, mode)), w.activateOk)
  }

  /** Every activation in `t` passes `mode` and every profile step names
      `profile`. */
  predicate UsesModeAndProfile(t: seq<Event>, mode: string, profile: string) {
    && (forall i :: 0 <= i < |t| && t[i].Activate? ==> |t[i].argv| == 2 && t[i].argv[1] == mode)
    && (forall i :: 0 <= i < |t| && t[i].SetProfile? ==> |t[i].argv| == 5 && t[i].argv[2] == profile)
  }

  predicate ProfileTouched(t: seq<Event>) { exists i :: 0 <= i < |t| && (t[i].SetProfile? || t[i].MakeDir?) }
  predicate Activated(t: seq<Event>) { exists i :: 0 <= i < |t| && t[i].Activate? }
  predicate Warned(t: seq<Event>) { exists i :: 0 <= i < |t| && t[i] == Echo(SwitchWarning) }

  /** The parts the switch sequence is assembled from: a build, profile
      events only, and an activation. */
  predicate WellFormedParts(realise: Event, profileStep: StepOutcome, activate: Event) {
    && realise.Realise? && activate.Activate?
    && forall i :: 0 <= i < |profileStep.events| ==> ProfileEvent(profileStep.events[i])
  }

  /** Where each event of an assembled trace comes from: position 1 is the
      build, the next `n` positions are the profile events (`n` is zero when
      the build failed), then the activation and possibly the warning, and
      the last position removes the directory. */
  lemma {:induction false} AssembleAt(tmpdir: string, realise: Event, realiseOk: bool, profileStep: StepOutcome,
                                      activate: Event, activateOk: bool, i: int)
    requires 0 <= i < |Assemble(tmpdir, realise, realiseOk, profileStep, activate, activateOk)|
    ensures var t := Assemble(tmpdir, realise, realiseOk, profileStep, activate, activateOk);
            var n := if realiseOk then |profileStep.events| else 0;
            && (2 <= i < 2 + n ==> t[i] == profileStep.events[i - 2])
            && (2 + n <= i < |t| - 1 ==> realiseOk && profileStep.ok
                                          && (i == 2 + n ==> t[i] == activate)
                                          && (i > 2 + n ==> !activateOk && t[i] == Echo(SwitchWarning)))
            && (realiseOk && profileStep.ok ==> |t| == 4 + n + (if activateOk then 0 else 1))
            && (!(realiseOk && profileStep.ok) ==> |t| == 3 + n)
  {
  }

  /** The profile step runs only after a successful build, and the
      activation only after a successful profile step. */
  lemma AssembleActivates(tmpdir: string, realise: Event, realiseOk: bool, profileStep: StepOutcome,
                          activate: Event, activateOk: bool)
    requires WellFormedParts(realise, profileStep, activate)
    ensures var t := Assemble(tmpdir, realise, realiseOk, profileStep, activate, activateOk);
            && (forall i :: 0 <= i < |t| && t[i].Activate? ==> t[i] == activate)
            && ((exists i :: 0 <= i < |t| && t[i].Activate?) <==> realiseOk && profileStep.ok)
            && ((exists i :: 0 <= i < |t| && t[i] == Echo(SwitchWarning)) <==> realiseOk && profileStep.ok && !activateOk)
  {
    var t := Assemble(tmpdir, realise, realiseOk, profileStep, activate, activateOk);
    var n := if realiseOk then |profileStep.events| else 0;
    forall i | 0 <= i < |t|
      ensures t[i].Activate? ==> i == 2 + n && t[i] == activate
      ensures t[i] == Echo(SwitchWarning) ==> i == 3 + n && !activateOk
    {
      AssembleAt(tmpdir, realise, realiseOk, profileStep, activate, activateOk, i);
      if 2 <= i < 2 + n {
        assert ProfileEvent(profileStep.events[i - 2]);
      }
    }
    if realiseOk && profileStep.ok {
      AssembleAt(tmpdir, realise, realiseOk, profileStep, activate, activateOk, 2 + n);
      if !activateOk {
        AssembleAt(tmpdir, realise, realiseOk, profileStep, activate, activateOk, 3 + n);
      }
    }
  }

  /** In an assembled trace the directory is created only first and removed
      only last, the build is the only `nix build`, and every profile
      event comes from the profile step and precedes every activation. */
  lemma AssembleOrder(tmpdir: string, realise: Event, realiseOk: bool, profileStep: StepOutcome,
                      activate: Event, activateOk: bool)
    requires WellFormedParts(realise, profileStep, activate)
    ensures var t := Assemble(tmpdir, realise, realiseOk, profileStep, activate, activateOk);
            && (forall i :: 0 < i < |t| ==> !t[i].AcquireTemp?)
            && (forall i :: 0 <= i < |t| - 1 ==> !t[i].ReleaseTemp?)
            && (forall i :: 0 <= i < |t| && i != 1 ==> !t[i].Realise?)
            && (forall i :: 0 <= i < |t| && ProfileEvent(t[i]) ==> realiseOk && 2 <= i < 2 + |profileStep.events|
                                                                    && t[i] == profileStep.events[i - 2])
            && (forall i :: 0 <= i < |t| && t[i].Activate? ==> i == 2 + |profileStep.events|)
  {
    var t := Assemble(tmpdir, realise, realiseOk, profileStep, activate, activateOk);
    var n := if realiseOk then |profileStep.events| else 0;
    forall i | 0 <= i < |t|
      ensures 0 < i ==> !t[i].AcquireTemp?
      ensures i < |t| - 1 ==> !t[i].ReleaseTemp?
      ensures i != 1 ==> !t[i].Realise?
      ensures ProfileEvent(t[i]) ==> realiseOk && 2 <= i < 2 + n && t[i] == profileStep.events[i - 2]
      ensures t[i].Activate? ==> realiseOk && i == 2 + n
    {
      AssembleAt(tmpdir, realise, realiseOk, profileStep, activate, activateOk, i);
      if 2 <= i < 2 + n {
        assert ProfileEvent(profileStep.events[i - 2]);
      }
    }
  }

  /** The order of an assembled trace, as the switch sequence promises it:
      the build comes first and alone, profile runs precede the activation
      and keep the profile step's argument vector. */
  lemma AssembleSequence(tmpdir: string, realise: Event, realiseOk: bool, profileStep: StepOutcome,
                         activate: Event, activateOk: bool, argv: seq<string>)
    requires WellFormedParts(realise, profileStep, activate)
    requires forall i :: 0 <= i < |profileStep.events| && profileStep.events[i].SetProfile? ==> profileStep.events[i].argv == argv
    ensures var t := Assemble(tmpdir, realise, realiseOk, profileStep, activate, activateOk);
            && t[1] == realise
            && (forall i :: 0 <= i < |t| && i != 1 ==> !t[i].Realise?)
            && (forall i, j :: 0 <= i < |t| && 0 <= j < |t| && t[i].SetProfile? && t[j].Activate? ==> i < j)
            && (forall i :: 0 <= i < |t| && t[i].SetProfile? ==> t[i].argv == argv)
            && (forall i :: 0 <= i < |t| && t[i].Activate? ==> t[i].argv == activate.argv)
  {
    var t := Assemble(tmpdir, realise, realiseOk, profileStep, activate, activateOk);
    AssembleOrder(tmpdir, realise, realiseOk, profileStep, activate, activateOk);
    AssembleActivates(tmpdir, realise, realiseOk, profileStep, activate, activateOk);
    forall i | 0 <= i < |t| && t[i].SetProfile?
      ensures t[i].argv == argv
    {
      assert ProfileEvent(t[i]);
    }
  }

  /** After a failed build an assembled trace holds the build alone between
      creating and removing the directory. */
  lemma AssembleFailedBuild(tmpdir: string, realise: Event, profileStep: StepOutcome, activate: Event, activateOk: bool)
    requires realise.Realise?
    ensures var t := Assemble(tmpdir, realise, false, profileStep, activate, activateOk);
            && t == [AcquireTemp(tmpdir), realise, ReleaseTemp(tmpdir)]
            && !ProfileTouched(t) && !Activated(t) && !Warned(t)
  {
    var t := Assemble(tmpdir, realise, false, profileStep, activate, activateOk);
    assert t == [AcquireTemp(tmpdir), realise, ReleaseTemp(tmpdir)];
    assert forall i :: 0 <= i < |t| ==> t[i].AcquireTemp? || t[i].Realise? || t[i].ReleaseTemp?;
  }

  /** After a successful build the profile step's events follow the build,
      all of them, in order and unchanged. */
  lemma AssembleRunsStep(tmpdir: string, realise: Event, profileStep: StepOutcome, activate: Event, activateOk: bool)
    ensures var t := Assemble(tmpdir, realise, true, profileStep, activate, activateOk);
            && |t| >= 3 + |profileStep.events|
            && forall k :: 0 <= k < |profileStep.events| ==> t[2 + k] == profileStep.events[k]
  {
    var t := Assemble(tmpdir, realise, true, profileStep, activate, activateOk);
    AssembleAt(tmpdir, realise, true, profileStep, activate, activateOk, 0);
    forall k | 0 <= k < |profileStep.events|
      ensures t[2 + k] == profileStep.events[k]
    {
      AssembleAt(tmpdir, realise, true, profileStep, activate, activateOk, 2 + k);
    }
  }

  /** `performSwitchAction` is its parts assembled: the body unfolded, only
      a stepping stone for the lemmas below. */
  lemma SwitchParts(toplevel: string, profile: string, nixargs: seq<string>, mode: string, w: World)
    ensures var result := BuildResult(w.tmpdir);
            var profileStep := SetNixProfile(profile, result, w);
            var realise := Realise(RealiseArgv(toplevel, nixargs, result, false, false));
            var activate := Activate(ActivateArgv(result, mode));
            && WellFormedParts(realise, profileStep, activate)
            && PerformSwitchAction(toplevel, profile, nixargs, mode, w)
               == Assemble(w.tmpdir, realise, w.realiseOk, profileStep, activate, w.activateOk)
  {
  }

  /** After a successful build the sequence runs `setNixProfile` on the
      build result: its events follow the build, all of them and in order,
      so the profile is always created or set. */
  lemma SwitchRunsProfileStep(toplevel: string, profile: string, nixargs: seq<string>, mode: string, w: World)
    requires w.realiseOk
    ensures var t := PerformSwitchAction(toplevel, profile, nixargs, mode, w);
            var step := SetNixProfile(profile, BuildResult(w.tmpdir), w);
            && |t| >= 3 + |step.events|
            && (forall k :: 0 <= k < |step.events| ==> t[2 + k] == step.events[k])
            && ProfileTouched(t)
  {
    var result := BuildResult(w.tmpdir);
    var step := SetNixProfile(profile, result, w);
    var t := PerformSwitchAction(toplevel, profile, nixargs, mode, w);
    SwitchParts(toplevel, profile, nixargs, mode, w);
    AssembleRunsStep(w.tmpdir, Realise(RealiseArgv(toplevel, nixargs, result, false, false)), step,
                     Activate(ActivateArgv(result, mode)), w.activateOk);
    var i :| 0 <= i < |step.events| && (if w.profileDirExists then step.events[i].SetProfile? else step.events[i].MakeDir?);
    assert t[2 + i] == step.events[i];
  }

  /** A failed build ends the sequence: the profile is neither created nor
      set, nothing is activated and no warning is printed. */
  lemma SwitchStopsAfterFailedBuild(toplevel: string, profile: string, nixargs: seq<string>, mode: string, w: World)
    requires !w.realiseOk
    ensures var t := PerformSwitchAction(toplevel, profile, nixargs, mode, w);
            && |t| == 3
            && !ProfileTouched(t) && !Activated(t) && !Warned(t)
  {
    var result := BuildResult(w.tmpdir);
    SwitchParts(toplevel, profile, nixargs, mode, w);
    AssembleFailedBuild(w.tmpdir, Realise(RealiseArgv(toplevel, nixargs, result, false, false)),
                        SetNixProfile(profile, result, w), Activate(ActivateArgv(result, mode)), w.activateOk);
  }

  /** The activation script runs exactly when the build and the profile
      step both succeed; a failed `mkdir` or `nix-env` skips it. */
  lemma SwitchActivatesIff(toplevel: string, profile: string, nixargs: seq<string>, mode: string, w: World)
    ensures Activated(PerformSwitchAction(toplevel, profile, nixargs, mode, w)) <==> w.realiseOk && ProfileSet(w)
  {
    var result := BuildResult(w.tmpdir);
    SwitchParts(toplevel, profile, nixargs, mode, w);
    AssembleActivates(w.tmpdir, Realise(RealiseArgv(toplevel, nixargs, result, false, false)), w.realiseOk,
                      SetNixProfile(profile, result, w), Activate(ActivateArgv(result, mode)), w.activateOk);
  }

  /** The warning is printed exactly when the build and the profile step
      succeed and activation fails; no error is raised in that case. */
  lemma SwitchWarnsIff(toplevel: string, profile: string, nixargs: seq<string>, mode: string, w: World)
    ensures Warned(PerformSwitchAction(toplevel, profile, nixargs, mode, w))
            <==> w.realiseOk && ProfileSet(w) && !w.activateOk
  {
    var result := BuildResult(w.tmpdir);
    SwitchParts(toplevel, profile, nixargs, mode, w);
    AssembleActivates(w.tmpdir, Realise(RealiseArgv(toplevel, nixargs, result, false, false)), w.realiseOk,
                      SetNixProfile(profile, result, w), Activate(ActivateArgv(result, mode)), w.activateOk);
  }

  /** The temporary directory is created first and removed last, once each,
      on every outcome. */
  lemma SwitchReleasesTemp(toplevel: string, profile: string, nixargs: seq<string>, mode: string, w: World)
    ensures var t := PerformSwitchAction(toplevel, profile, nixargs, mode, w);
            && t[0] == AcquireTemp(w.tmpdir) && t[|t| - 1] == ReleaseTemp(w.tmpdir)
            && (forall i :: 0 < i < |t| ==> !t[i].AcquireTemp?)
            && (forall i :: 0 <= i < |t| - 1 ==> !t[i].ReleaseTemp?)
  {
    var result := BuildResult(w.tmpdir);
    SwitchParts(toplevel, profile, nixargs, mode, w);
    AssembleOrder(w.tmpdir, Realise(RealiseArgv(toplevel, nixargs, result, false, false)), w.realiseOk,
                  SetNixProfile(profile, result, w), Activate(ActivateArgv(result, mode)), w.activateOk);
  }

  /** The steps run in order: the build before anything else, the profile
      before activation, and the profile and activation both use the link
      the build wrote. */
  lemma SwitchOrder(toplevel: string, profile: string, nixargs: seq<string>, mode: string, w: World)
    ensures var t := PerformSwitchAction(toplevel, profile, nixargs, mode, w);
            var result := BuildResult(w.tmpdir);
            && t[1] == Realise(RealiseArgv(toplevel, nixargs, result, false, false))
            && (forall i :: 0 <= i < |t| && i != 1 ==> !t[i].Realise?)
            && (forall i, j :: 0 <= i < |t| && 0 <= j < |t| && t[i].SetProfile? && t[j].Activate? ==> i < j)
            && (forall i :: 0 <= i < |t| && t[i].SetProfile? ==> t[i].argv == SetProfileArgv(profile, result))
            && (forall i :: 0 <= i < |t| && t[i].Activate? ==> t[i].argv == ActivateArgv(result, mode))
  {
    var result := BuildResult(w.tmpdir);
    var profileStep := SetNixProfile(profile, result, w);
    var realise := Realise(RealiseArgv(toplevel, nixargs, result, false, false));
    var activate := Activate(ActivateArgv(result, mode));
    SwitchParts(toplevel, profile, nixargs, mode, w);
    AssembleSequence(w.tmpdir, realise, w.realiseOk, profileStep, activate, w.activateOk, SetProfileArgv(profile, result));
  }


  /** Every activation in the trace passes the requested mode, and every
      profile step names the requested profile. */
  lemma SwitchModeAndProfile(toplevel: string, profile: string, nixargs: seq<string>, mode: string, w: World)
    ensures UsesModeAndProfile(PerformSwitchAction(toplevel, profile, nixargs, mode, w), mode, profile)
  {
    SwitchOrder(toplevel, profile, nixargs, mode, w);
  }

  /** Inside the switch sequence the activation script is always
      `<tmpdir>/nixos-build/bin/switch-to-configuration`: the build result
      is never empty and never ends in a slash. */
  lemma SwitchScriptPath(toplevel: string, profile: string, nixargs: seq<string>, mode: string, w: World)
    ensures var t := PerformSwitchAction(toplevel, profile, nixargs, mode, w);
            forall i :: 0 <= i < |t| && t[i].Activate? ==>
              t[i].argv == [BuildResult(w.tmpdir) + "/bin/" + Script, mode]
  {
    var result := BuildResult(w.tmpdir);
    BuildResultNamed(w.tmpdir);
    ActivationScript(result, mode);
    SwitchOrder(toplevel, profile, nixargs, mode, w);
  }
}

=== FILE: paths.dfy ===
/** The two POSIX `os.path` functions the tool uses: `join` and `dirname`. */
module Paths {
  import opened Strings

  const Sep: char := '/'

  /** `os.path.join(a, b)`: an absolute `b` replaces `a`; otherwise a `/` is
      inserted unless `a` is empty or already ends with one. */
  function Join(a: string, b: string): (r: string)
    ensures |b| > 0 && b[0] == Sep ==> r == b
    ensures !(|b| > 0 && b[0] == Sep) && (a == "" || EndsWith(a, Sep)) ==> r == a + b
    ensures !(|b| > 0 && b[0] == Sep) && a != "" && !EndsWith(a, Sep) ==> r == a + [Sep] + b
    ensures r[|r| - |b|..] == b
  {
    if |b| > 0 && b[0] == Sep then b
    else if a == "" || EndsWith(a, Sep) then a + b
    else a + [Sep] + b
  }

  /** One past the index of the last `c` in `s` (`s.rfind(c) + 1`), 0 when
      `s` has no `c`. */
  function AfterLast(s: string, c: char): (i: nat)
    ensures i <= |s|
    ensures i > 0 ==> s[i - 1] == c
    ensures forall k :: i <= k < |s| ==> s[k] != c
  {
    if |s| == 0 then 0
    else if s[|s| - 1] == c then |s|
    else AfterLast(s[..|s| - 1], c)
  }

  /** `s.rstrip(c)`: every trailing `c` removed. */
  function RStrip(s: string, c: char): (r: string)
    ensures r <= s
    ensures !EndsWith(r, c)
    ensures forall k :: |r| <= k < |s| ==> s[k] == c
  {
    if EndsWith(s, c) then RStrip(s[..|s| - 1], c) else s
  }

  /** `os.path.dirname(p)`: everything up to the last `/`, with trailing
      slashes removed unless the head consists of slashes only. */
  function Dirname(p: string): (r: string)
    ensures r <= p
    ensures Sep !in p ==> r == ""
    ensures r != "" && EndsWith(r, Sep) ==> forall k :: 0 <= k < |r| ==> r[k] == Sep
  {
    var head := p[..AfterLast(p, Sep)];
    if head != "" && exists k :: 0 <= k < |head| && head[k] != Sep then RStrip(head, Sep)
    else head
  }

  /** `dirname` undoes `join` for a plain file name under a directory that
      does not end with a slash. */
  lemma DirnameJoin(dir: string, name: string)
    requires dir != "" && !EndsWith(dir, Sep)
    requires Sep !in name
    ensures Join(dir, name) == dir + [Sep] + name
    ensures Dirname(Join(dir, name)) == dir
  {
    var p := dir + [Sep] + name;
    assert |name| > 0 ==> name[0] in name;
    assert AfterLast(p, Sep) == |dir| + 1 by {
      LastSeparator(dir, name, Sep);
    }
    var head := p[..|dir| + 1];
    assert head == dir + [Sep];
    assert head[|dir| - 1] != Sep;
    assert head[..|head| - 1] == dir;
  }

  /** The last separator of `dir + [c] + name` is the one inserted, when
      `name` holds none. */
  lemma {:induction false} LastSeparator(dir: string, name: string, c: char)
    requires c !in name
    ensures AfterLast(dir + [c] + name, c) == |dir| + 1
  {
    var p := dir + [c] + name;
    if |name| > 0 {
      assert p[|p| - 1] == name[|name| - 1];
      assert name[|name| - 1] in name;
      var shorter := name[..|name| - 1];
      assert p[..|p| - 1] == dir + [c] + shorter;
      assert c !in shorter by {
        forall k | 0 <= k < |shorter| ensures shorter[k] != c {
          assert name[k] in name;
        }
      }
      LastSeparator(dir, shorter, c);
    }
  }
}

=== FILE: strings.dfy ===
/** The few Python `str` methods the tool relies on, for a single-character
    argument: `count`, `endswith`, `removesuffix` and `split`, with `join` as
    the inverse of `split`. */
module Strings {

  /** Number of occurrences of `c` in `s` (`s.count(c)`). */
  function Count(s: string, c: char): (n: nat)
    ensures n <= |s|
  {
    if |s| == 0 then 0
    else
      assert s == [s[0]] + s[1..];
      (if s[0] == c then 1 else 0) + Count(s[1..], c)
  }

  /** `s.endswith(c)`: `s` is some text followed by `c`. */
  predicate EndsWith(s: string, c: char)
    ensures EndsWith(s, c) <==> exists t :: t + [c] == s
  {
    assert |s| > 0 ==> s[..|s| - 1] + [s[|s| - 1]] == s;
    |s| > 0 && s[|s| - 1] == c
  }

  /** `s.removesuffix(c)`: drops one trailing `c`, if there is one. */
  function RemoveSuffix(s: string, c: char): (r: string)
    ensures EndsWith(s, c) ==> r + [c] == s
    ensures !EndsWith(s, c) ==> r == s
  {
    if EndsWith(s, c) then s[..|s| - 1] else s
  }

  /** Index of the first `c` in `s` (`s.index(c)`). */
  function IndexOf(s: string, c: char): (i: nat)
    requires c in s
    ensures i < |s| && s[i] == c
    ensures forall k :: 0 <= k < i ==> s[k] != c
  {
    if s[0] == c then 0
    else
      assert s[0] != c && c in s[1..];
      1 + IndexOf(s[1..], c)
  }

  /** `s.split(c)`: the pieces of `s` between the occurrences of `c`, in order;
      there is always one more piece than there are separators. */
  function Split(s: string, c: char): (parts: seq<string>)
    ensures |parts| == Count(s, c) + 1
    decreases |s|
  {
    if c !in s then
      CountZero(s, c);
      [s]
    else
      var i := IndexOf(s, c);
      Around(s, i);
      CountConcat(s[..i] + [c], s[i + 1..], c);
      CountConcat(s[..i], [c], c);
      assert c !in s[..i];
      CountZero(s[..i], c);
      [s[..i]] + Split(s[i + 1..], c)
  }

  /** `c.join(parts)`: the pieces glued back together with `c` between them. */
  function JoinWith(parts: seq<string>, c: char): string {
    if |parts| == 0 then ""
    else if |parts| == 1 then parts[0]
    else parts[0] + [c] + JoinWith(parts[1..], c)
  }

  /** A character is counted zero times exactly when it does not occur. */
  lemma {:induction false} CountZero(s: string, c: char)
    ensures Count(s, c) == 0 <==> c !in s
  {
    if |s| > 0 {
      CountZero(s[1..], c);
      assert c in s <==> s[0] == c || c in s[1..];
    }
  }

  /** Counting distributes over concatenation. */
  lemma {:induction false} CountConcat(a: string, b: string, c: char)
    ensures Count(a + b, c) == Count(a, c) + Count(b, c)
  {
    if |a| == 0 {
      assert a + b == b;
    } else {
      assert (a + b)[1..] == a[1..] + b;
      CountConcat(a[1..], b, c);
    }
  }

  /** A string without the separator splits into itself alone. */
  lemma SplitNoSeparator(s: string, c: char)
    requires c !in s
    ensures Split(s, c) == [s]
  {
  }

  /** Splitting at the first separator: the text before it is the first
      piece and the rest is split on its own. */
  lemma SplitAround(a: string, b: string, c: char)
    requires c !in a
    ensures Split(a + [c] + b, c) == [a] + Split(b, c)
  {
    var s := a + [c] + b;
    assert s[|a|] == c;
    assert s[..|a|] == a;
    var i := IndexOf(s, c);
    assert i <= |a|;
    assert s[i] in a + [c];
    assert s[..i] == a && s[i + 1..] == b;
  }

  /** The first piece of a split is the text before the first separator. */
  lemma FirstPiece(a: string, b: string, c: char)
    requires c !in a
    ensures Split(a + [c] + b, c)[0] == a
  {
    SplitAround(a, b, c);
  }

  /** No piece of a split holds the separator. */
  lemma {:induction false} SplitPiecesFree(s: string, c: char)
    ensures forall i :: 0 <= i < |Split(s, c)| ==> c !in Split(s, c)[i]
    decreases |s|
  {
    if c in s {
      var i := IndexOf(s, c);
      SplitPiecesFree(s[i + 1..], c);
      assert c !in s[..i];
      assert Split(s, c) == [s[..i]] + Split(s[i + 1..], c);
    }
  }

  /** Joining the pieces of a split gives back the original string. */
  lemma {:induction false} JoinSplit(s: string, c: char)
    ensures JoinWith(Split(s, c), c) == s
    decreases |s|
  {
    if c in s {
      var i := IndexOf(s, c);
      JoinSplit(s[i + 1..], c);
      JoinSplitStep(s, c);
    } else {
      SplitNoSeparator(s, c);
    }
  }

  /** The inductive step of `JoinSplit`: if joining undoes the split of the
      text after the first separator, it undoes the split of the whole. */
  lemma JoinSplitStep(s: string, c: char)
    requires c in s
    requires JoinWith(Split(s[IndexOf(s, c) + 1..], c), c) == s[IndexOf(s, c) + 1..]
    ensures JoinWith(Split(s, c), c) == s
  {
    var i := IndexOf(s, c);
    SplitStep(s, c);
    JoinCons(s[..i], Split(s[i + 1..], c), c);
    Around(s, i);
  }

  /** A string is the text before an index, the character there, and the
      text after it. */
  lemma Around(s: string, i: nat)
    requires i < |s|
    ensures s == s[..i] + [s[i]] + s[i + 1..]
  {
  }

  /** One unfolding of `Split` at the first separator. */
  lemma SplitStep(s: string, c: char)
    requires c in s
    ensures Split(s, c) == [s[..IndexOf(s, c)]] + Split(s[IndexOf(s, c) + 1..], c)
  {
  }

  /** One unfolding of `JoinWith` in front of a non-empty list of pieces. */
  lemma JoinCons(first: string, rest: seq<string>, c: char)
    requires |rest| > 0
    ensures JoinWith([first] + rest, c) == first + [c] + JoinWith(rest, c)
  {
    assert ([first] + rest)[1..] == rest;
  }

  /** Splitting a join of separator-free pieces gives back the pieces. */
  lemma {:induction false} SplitJoin(parts: seq<string>, c: char)
    requires |parts| > 0
    requires forall i :: 0 <= i < |parts| ==> c !in parts[i]
    ensures Split(JoinWith(parts, c), c) == parts
  {
    if |parts| > 1 {
      SplitJoin(parts[1..], c);
      SplitAround(parts[0], JoinWith(parts[1..], c), c);
      assert [parts[0]] + parts[1..] == parts;
    }
  }

  /** A string with exactly one separator is the two pieces of its split
      around that separator. */
  lemma TwoPieces(s: string, c: char)
    requires Count(s, c) == 1
    ensures |Split(s, c)| == 2
    ensures s == Split(s, c)[0] + [c] + Split(s, c)[1]
    ensures c !in Split(s, c)[0] && c !in Split(s, c)[1]
  {
    var parts := Split(s, c);
    JoinSplit(s, c);
    SplitPiecesFree(s, c);
    assert parts[1..] == [parts[1]];
  }
}

=== FILE: transform.dfy ===
/** `nixos_command/transform.py`: turning a short flake reference into the
    fully-qualified attribute path of a NixOS configuration, and choosing the
    profile a configuration is installed into. The host name is a parameter
    (transform.py asks the operating system for it). */
module Transform {
  import opened Base
  import opened Strings
  import Paths

  /** The character between a flake and the host it is anchored on. */
  const Anchor: char := '#'

  /** The text between the flake's `#` and the anchor in an attribute path. */
  const ConfigurationsMarker: string := "nixosConfigurations.\""

  /** The text between the anchor and the attribute in an attribute path. */
  const AnchorEnd: string := "\"."

  /** The two things an attribute path selects with: the flake it reads and
      the host configuration within it. */
  datatype Target = Target(source: string, anchor: string)

  /** `<source>#nixosConfigurations."<anchor>".<attribute>`, the f-string both
      branches of the normaliser return. */
  function Qualify(source: string, anchor: string, attribute: string): (path: string)
    ensures |path| > |source| && path[..|source|] == source && path[|source|] == Anchor
    ensures |path| > |attribute| && path[|path| - |attribute| - 1..] == "." + attribute
  {
    var front := source + [Anchor] + ConfigurationsMarker + anchor + "\"";
    assert AnchorEnd == "\"" + ".";
    assert source + [Anchor] + ConfigurationsMarker + anchor + AnchorEnd + attribute == front + ("." + attribute);
    source + [Anchor] + ConfigurationsMarker + anchor + AnchorEnd + attribute
  }

  /** Reads source and anchor back out of an attribute path for a known
      attribute; `None` for text that is not of that shape. */
  function ParseAttributePath(path: string, attribute: string): Option<Target> {
    var source := Split(path, Anchor)[0];
    if |source| >= |path| then None
    else
      var rest := path[|source| + 1..];
      var tail := AnchorEnd + attribute;
      if |rest| < |ConfigurationsMarker| + |tail|
        || rest[..|ConfigurationsMarker|] != ConfigurationsMarker
        || rest[|rest| - |tail|..] != tail
      then None
      else Some(Target(source, rest[|ConfigurationsMarker|..|rest| - |tail|]))
  }

  /** The attribute transform.py's normaliser selects when none is given. */
  const DefaultAttribute: string := "config.system.build.toplevel"

  /** `normalizeNixosFlakeRef(ref, attribute)` on a machine called `hostname`.
      A reference with two or more `#` fails transform.py's assertion; one
      without `#`, or ending in it, is anchored on the host name; otherwise
      the text after the `#` is the anchor. */
  function NormalizeFlakeRef(ref: string, attribute: string, hostname: string): (r: Result<string>)
    ensures r.Failure? <==> Count(ref, Anchor) >= 2
    ensures r.Failure? ==> r.error == InvalidReference
  {
    var anchorCount := Count(ref, Anchor);
    if !(anchorCount == 1 || anchorCount == 0) then Failure(InvalidReference)
    else if EndsWith(ref, Anchor) || anchorCount == 0 then
      Success(Qualify(RemoveSuffix(ref, Anchor), hostname, attribute))
    else
      var parts := Split(ref, Anchor);
      Success(Qualify(parts[0], parts[1], attribute))
  }

  /** An attribute path names its source and anchor unambiguously: parsing
      recovers both from any source without `#` and any anchor. */
  lemma ParseQualify(source: string, anchor: string, attribute: string)
    requires Anchor !in source
    ensures ParseAttributePath(Qualify(source, anchor, attribute), attribute)
            == Some(Target(source, anchor))
  {
    var tail := AnchorEnd + attribute;
    var rest := ConfigurationsMarker + anchor + tail;
    var path := Qualify(source, anchor, attribute);
    assert path == source + [Anchor] + rest;
    FirstPiece(source, rest, Anchor);
    assert path[|source| + 1..] == rest;
    Framed(ConfigurationsMarker, anchor, tail);
  }

  /** The three parts of a concatenation are read back by slicing. */
  lemma Framed(front: string, middle: string, back: string)
    ensures var s := front + middle + back;
            && s[..|front|] == front
            && s[|s| - |back|..] == back
            && s[|front|..|s| - |back|] == middle
  {
  }

  /** A reference without `#` is the source itself, anchored on the host. */
  lemma NormalizeUnanchored(ref: string, attribute: string, hostname: string)
    requires Anchor !in ref
    ensures NormalizeFlakeRef(ref, attribute, hostname) == Success(Qualify(ref, hostname, attribute))
  {
    CountZero(ref, Anchor);
    assert |ref| > 0 ==> ref[|ref| - 1] in ref;
  }

  /** A reference ending in its only `#` loses exactly that `#` and is
      anchored on the host. */
  lemma NormalizeTrailingAnchor(source: string, attribute: string, hostname: string)
    requires Anchor !in source
    ensures NormalizeFlakeRef(source + [Anchor], attribute, hostname)
            == Success(Qualify(source, hostname, attribute))
  {
    CountZero(source, Anchor);
    CountConcat(source, [Anchor], Anchor);
    assert Count([Anchor], Anchor) == 1;
    assert RemoveSuffix(source + [Anchor], Anchor) == source;
  }

  /** A reference `source#anchor` with a non-empty anchor is split at the `#`;
      the host name plays no part. */
  lemma NormalizeExplicitAnchor(source: string, anchor: string, attribute: string, hostname: string)
    requires Anchor !in source && Anchor !in anchor && anchor != ""
    ensures NormalizeFlakeRef(source + [Anchor] + anchor, attribute, hostname)
            == Success(Qualify(source, anchor, attribute))
  {
    var ref := source + [Anchor] + anchor;
    CountZero(source, Anchor);
    CountZero(anchor, Anchor);
    CountConcat(source + [Anchor], anchor, Anchor);
    CountConcat(source, [Anchor], Anchor);
    assert Count([Anchor], Anchor) == 1;
    assert ref[|ref| - 1] == anchor[|anchor| - 1];
    assert anchor[|anchor| - 1] in anchor;
    SplitAround(source, anchor, Anchor);
    SplitNoSeparator(source, Anchor);
    SplitNoSeparator(anchor, Anchor);
  }

  /** The flake a reference reads: the text before its `#`, or all of it. */
  function SourceOf(ref: string): string {
    Split(ref, Anchor)[0]
  }

  /** The host configuration a reference selects: the text after its `#` when
      that is non-empty, otherwise the host name. */
  function AnchorOf(ref: string, hostname: string): string {
    var parts := Split(ref, Anchor);
    if |parts| == 2 && parts[1] != "" then parts[1] else hostname
  }

  /** Whatever reference is accepted, the result is the attribute path of the
      reference's source and anchor. */
  lemma NormalizeQualifies(ref: string, attribute: string, hostname: string)
    requires Count(ref, Anchor) <= 1
    ensures NormalizeFlakeRef(ref, attribute, hostname)
            == Success(Qualify(SourceOf(ref), AnchorOf(ref, hostname), attribute))
  {
    var parts := Split(ref, Anchor);
    if Count(ref, Anchor) == 0 {
      CountZero(ref, Anchor);
      SplitNoSeparator(ref, Anchor);
      NormalizeUnanchored(ref, attribute, hostname);
    } else {
      TwoPieces(ref, Anchor);
      if parts[1] == "" {
        assert ref == parts[0] + [Anchor];
        NormalizeTrailingAnchor(parts[0], attribute, hostname);
      } else {
        NormalizeExplicitAnchor(parts[0], parts[1], attribute, hostname);
      }
    }
  }

  /** Whatever reference is accepted, parsing the result gives back the
      reference's source and anchor, the source holds no `#`, and the result
      ends with `.` and the attribute. */
  lemma NormalizeDecodes(ref: string, attribute: string, hostname: string)
    requires Count(ref, Anchor) <= 1
    ensures var r := NormalizeFlakeRef(ref, attribute, hostname);
            && r.Success?
            && ParseAttributePath(r.value, attribute) == Some(Target(SourceOf(ref), AnchorOf(ref, hostname)))
            && Split(r.value, Anchor)[0] == SourceOf(ref)
            && Anchor !in SourceOf(ref)
            && r.value[|r.value| - |attribute| - 1..] == "." + attribute
  {
    var source, anchor := SourceOf(ref), AnchorOf(ref, hostname);
    var path := Qualify(source, anchor, attribute);
    NormalizeQualifies(ref, attribute, hostname);
    assert NormalizeFlakeRef(ref, attribute, hostname) == Success(path);
    ParseQualify(source, anchor, attribute);
    QualifyShape(source, anchor, attribute);
  }

  /** The source of an attribute path is the text before its first `#`, and
      the path ends with `.` and the attribute. */
  lemma QualifyShape(source: string, anchor: string, attribute: string)
    requires Anchor !in source
    ensures var path := Qualify(source, anchor, attribute);
            && Split(path, Anchor)[0] == source
            && path[|path| - |attribute| - 1..] == "." + attribute
  {
    QualifySource(source, anchor, attribute);
  }

  /** The text before an attribute path's first `#` is its source. */
  lemma QualifySource(source: string, anchor: string, attribute: string)
    requires Anchor !in source
    ensures Split(Qualify(source, anchor, attribute), Anchor)[0] == source
  {
    var rest := ConfigurationsMarker + anchor + AnchorEnd + attribute;
    assert Qualify(source, anchor, attribute) == source + [Anchor] + rest;
    FirstPiece(source, rest, Anchor);
  }

  /** The system profile, and the directory holding named profiles (with its
      trailing slash, as transform.py's f-string writes it). */
  const DefaultProfile: string := "/nix/var/nix/profiles/system"
  const NamedProfilePrefix: string := "/nix/var/nix/profiles/system-profiles/"

  /** Python truthiness of the optional profile name: present and non-empty. */
  predicate IsNamed(profileName: Option<string>) {
    profileName.Some? && profileName.value != ""
  }

  /** `getProfilePath(profile_name)`: the system profile for an absent or
      empty name, otherwise the named profile under `system-profiles`. */
  function ProfilePath(profileName: Option<string>): (p: string)
    ensures IsNamed(profileName) <==> p != DefaultProfile
  {
    if !IsNamed(profileName) then DefaultProfile
    else NamedProfilePrefix + profileName.value
  }

  /** The profile name a profile path was made from; `None` for the system
      profile and for paths outside `system-profiles`. */
  function ProfileNameOf(path: string): Option<string> {
    if |path| > |NamedProfilePrefix| && path[..|NamedProfilePrefix|] == NamedProfilePrefix
    then Some(path[|NamedProfilePrefix|..])
    else None
  }

  /** The profile name is recovered from its path; absent and empty names
      both mean the system profile. */
  lemma ProfileNameRoundTrip(profileName: Option<string>)
    ensures ProfileNameOf(ProfilePath(profileName)) == if IsNamed(profileName) then profileName else None
  {
    if IsNamed(profileName) {
      var p := ProfilePath(profileName);
      assert p[..|NamedProfilePrefix|] == NamedProfilePrefix;
      assert p[|NamedProfilePrefix|..] == profileName.value;
    }
  }

  /** Two profile names select the same profile exactly when both mean the
      system profile or they are the same non-empty name. */
  lemma ProfilePathInjective(a: Option<string>, b: Option<string>)
    ensures ProfilePath(a) == ProfilePath(b) <==> (IsNamed(a) == IsNamed(b) && (IsNamed(a) ==> a == b))
  {
    ProfileNameRoundTrip(a);
    ProfileNameRoundTrip(b);
  }

  /** The directory `setNixProfile` makes sure exists: the profiles root for
      the system profile, `system-profiles` for a name without a slash. */
  lemma ProfileDirectory(profileName: Option<string>)
    requires IsNamed(profileName) ==> Paths.Sep !in profileName.value
    ensures Paths.Dirname(ProfilePath(profileName))
            == if IsNamed(profileName) then "/nix/var/nix/profiles/system-profiles" else "/nix/var/nix/profiles"
  {
    if IsNamed(profileName) {
      NamedProfileDirectory(profileName.value);
    } else {
      SystemProfileDirectory();
    }
  }

  /** The directory of a named profile whose name has no slash. */
  lemma NamedProfileDirectory(name: string)
    requires name != "" && Paths.Sep !in name
    ensures Paths.Dirname(NamedProfilePrefix + name) == "/nix/var/nix/profiles/system-profiles"
  {
    var dir := "/nix/var/nix/profiles/system-profiles";
    assert !EndsWith(dir, Paths.Sep) by {
      assert dir[|dir| - 1] == 's';
    }
    Paths.DirnameJoin(dir, name);
    assert NamedProfilePrefix + name == dir + [Paths.Sep] + name;
  }

  /** The directory of the system profile. */
  lemma SystemProfileDirectory()
    ensures Paths.Dirname(DefaultProfile) == "/nix/var/nix/profiles"
  {
    var dir := "/nix/var/nix/profiles";
    assert !EndsWith(dir, Paths.Sep) by {
      assert dir[|dir| - 1] == 's';
    }
    assert Paths.Sep !in "system";
    Paths.DirnameJoin(dir, "system");
    assert DefaultProfile == dir + [Paths.Sep] + "system";
  }
}
